=== FILE: README.md ===
# mime-types, modelled in Dafny

A model of `index.js` of the `mime-types` package, the small library that
maps file extensions to MIME types and back, on top of the `mime-db` data
set. The model covers:

- **`populateMaps`**, the fold that builds the extension → type map from the
  database, including its conflict rule: a source-preference list
  `nginx < apache < (no source) < iana`, read with `Array.prototype.indexOf`,
  with `application/octet-stream` displaced by any later claimant, whatever
  its rank, and an `application/` type other than it winning ties (`TypeMap`).
- **`EXTRACT_TYPE_REGEXP`**, modelled as a deterministic scanner `Extract`
  and proved equal, on every input, to a declarative reading of the regular
  expression (`TypeExtract`).
- **`lookup`, `extension`, `charset`, `contentType`**, as pure functions of
  the database and the built map that return `None` where the library returns
  `false` (`MimeTypes`), together with the POSIX behaviour of
  `path.extname` that `lookup` relies on (`PathExt`).

Supporting modules: `Optional` (the `Option` type), `MimeDb` (records, the
database as a sequence of `(type, record)` pairs in `Object.keys` order,
`db[key]` as `Get`) and `Text` (ASCII lower-casing, `String.prototype.includes`).

JavaScript truthiness is modelled explicitly: a `types[ext]`, `charset` or
`extensions[0]` value counts as present only when it is a non-empty string,
and the empty input string is rejected just as `!str` rejects it.

### Enumeration order and unlisted sources

Two properties of `populateMaps` that a reader might not expect:

- `preference.indexOf` (index.js:130, 143-144) gives a source string that is
  not in the preference list the rank `-1`, below `nginx`, while a missing
  source (`undefined`) has rank 2 (`TypeMap.RankValues`).
- The skip condition (index.js:146-154) does not fire when two claimants of
  an extension have equal rank and the holder is not an `application/`
  type, so the one enumerated later overwrites the earlier one. When neither
  of two tied claimants is an `application/` type, swapping them in the
  enumeration changes the map (`TypeMap.TwoClaimants`, `TypeMap.OrderMatters`).
  A claimant other than `application/octet-stream` that strictly outranks
  every other one wins in any position (`TypeMap.PopulateStrictWinner`), and
  so does an `application/` type other than `application/octet-stream` tied
  only with non-`application/` claimants, although it is not a strict winner
  (`TypeMap.ApplicationTieHolds`).
- `application/octet-stream` is displaced by every later claimant, even one it
  outranks (index.js:146), so it keeps an extension only when it is the last
  claimant enumerated (`TypeMap.OctetAlwaysDisplaced`).

Extensions are also stored as the database spells them: `populateMaps` does
not lower-case them, while `lookup` lower-cases what it searches for.

## Model

| member | source | states |
|---|---|---|
| TypeMap.RankValues | index.js:130-144 | nginx, apache, no source and iana rank 0, 1, 2 and 3; any other source string ranks -1 |
| TypeMap.IndexOf | index.js:143-144 | `indexOf`: -1 exactly when the value is absent, otherwise the first index holding it |
| TypeMap.Rank | index.js:130-144 | no contract; `RankValues` gives its value for every source |
| TypeMap.SourceOf | index.js:143 | no contract; the source of the held type's record, read through `Get`, used by `ConflictRule` and `TwoClaimants` |
| TypeMap.KeepsExisting | index.js:146-147 | no contract; the skip condition, whose cases `ConflictRule` spells out |
| TypeMap.Assign | index.js:142-154 | one claim adds the extension to the map, leaves it with either the claiming type or the value it held, and changes no other extension |
| TypeMap.ConflictRule | index.js:142-154 | an octet-stream holder is always displaced, a more preferred claimant displaces, a less preferred one is skipped unless the holder is octet-stream, and on equal rank the claimant wins unless the holder is an `application/` type |
| TypeMap.AddExtensions | index.js:139-155 | the inner loop adds exactly the record's extensions to the map's keys |
| TypeMap.ExtensionsOf | index.js:133-137 | no contract; the extensions a record contributes, none when the field is absent; `ExtensionsListed` states that each is one the record lists |
| TypeMap.AddEntries | index.js:132-156 | the outer loop never removes an extension; `AddEntriesClaims` and `AddEntriesBacked` give its keys and values |
| TypeMap.Populate | index.js:23-26 | no contract; `PopulateDomain`, `PopulateSound` and `PopulateStrictWinner` carry its properties |
| TypeMap.PopulateDomain | index.js:132-156 | the built map's keys are exactly the extensions that some record lists |
| TypeMap.PopulateSound | index.js:132-156 | every extension maps to a non-empty database key whose record lists that extension |
| TypeMap.PopulateStrictWinner | index.js:132-156 | a non-octet-stream type whose source strictly outranks every other claimant of an extension ends up as that extension's type, wherever it is enumerated |
| TypeMap.TwoClaimants | index.js:142-154 | for two records claiming one extension, the second keeps it unless the first is a non-octet-stream type that outranks it or ties with it as an `application/` type |
| TypeMap.OrderMatters | index.js:132-156 | swapping two equally ranked `text/` records that claim the same extension changes which type the extension maps to |
| TypeMap.ApplicationTieHolds | index.js:146-154 | an `application/` type tied with a `text/` type keeps the extension in both enumeration orders, though it does not strictly outrank the other |
| TypeMap.OctetAlwaysDisplaced | index.js:143-154 | an iana `application/octet-stream` record, which outranks an nginx `text/` record, loses the extension to it when enumerated first and keeps it only when enumerated last |
| TypeExtract.ExtractMatches | index.js:22 | the scanner returns token `t` exactly when the regular expression matches and captures `t` |
| TypeExtract.Matches | index.js:22 | definition of the pattern: the input splits into ASCII white space, a 1 to 127 character type segment (alphanumeric first), `/`, a 1 to 127 character subtype segment, then `;`, white space or the end; the capture is the token |
| TypeExtract.Extract | index.js:22 | no contract; `ExtractMatches` ties it to the pattern in both directions |
| TypeExtract.ExtractSound | index.js:22 | whatever the scanner returns is a capture of the regular expression |
| TypeExtract.ExtractComplete | index.js:22 | every capture of the regular expression is what the scanner returns |
| TypeExtract.LongTypeFails | index.js:22 | a type segment of 128 characters makes the match fail |
| TypeExtract.LongSubtypeFails | index.js:22 | a subtype segment of 128 characters makes the match fail |
| TypeExtract.ExtractToken | index.js:22 | a capture is two segments without `/` joined by one `/` |
| TypeExtract.ExtractIdempotent | index.js:22 | matching a capture again captures it whole |
| TypeExtract.ExtractIgnoresParameters | index.js:22 | text appended after a `;` does not change the capture |
| TypeExtract.ExtractLowerCase | index.js:39-40 | lower-case input yields a lower-case capture |
| Text.Lower | index.js:39 | `toLowerCase` on ASCII: same length, no upper-case letter, each character lower-cased by `LowerChar` |
| Text.Contains | index.js:48 | `includes`: no contract; `ContainsAt` and `ContainsWitness` state that it holds exactly when the block occurs at some index |
| Text.ContainsAt | index.js:48 | a block occurring at some index is found by `includes` |
| Text.ContainsWitness | index.js:48 | whatever `includes` finds occurs at some index |
| PathExt.Extname | index.js:117 | the extension is empty or a dot followed by text with no dot and no separator |
| PathExt.ExtnameInDirectory | index.js:117 | in any directory, `name.ext` with a non-empty name and dot-free `ext` has extension `.ext` |
| MimeTypes.TypeOf | index.js:39-40 | the type that `charset` and `extension` look up is lower-case |
| MimeTypes.Find | index.js:121 | a hit is a non-empty value stored under a non-empty key; a miss means the key is empty, absent or maps to the empty string |
| MimeDb.Get | index.js:42-43 | `db[key]`: nothing exactly when no entry has the key, otherwise a record stored under it |
| MimeTypes.PathExtension | index.js:117-119 | the searched extension is lower-case and holds no dot or separator |
| MimeTypes.Lookup | index.js:111-122 | the empty path finds nothing and a hit is a non-empty value of the map |
| MimeTypes.LookupTrailingDot | index.js:117-121 | a path ending in a dot finds nothing |
| MimeTypes.LookupNoSeparator | index.js:117-121 | for a path without separators the searched key is the lower-cased text after the last dot of `x.` plus the path |
| MimeTypes.LookupDotFree | index.js:116-121 | `ext`, `.ext` and `file.ext` all look up the lower-cased `ext` |
| MimeTypes.LookupInDirectory | index.js:116-121 | `dir/file.ext` looks up the lower-cased `ext`, whatever the directory |
| MimeTypes.LookupDotFileInDirectory | index.js:117-121 | `dir/.ext` is a dot-file and finds nothing, unlike a bare `.ext` |
| MimeTypes.LookupPopulated | index.js:111-121 | against the built map, a dot-free extension finds its entry when the lower-cased extension is a key and nothing otherwise |
| MimeTypes.Extension | index.js:92-102 | a result is a non-empty extension listed by the record of the extracted type; which one, the first, is stated by `ExtensionRule` |
| MimeTypes.ExtensionThenLookup | index.js:92-122 | the default extension of a type, when it is lower-case and free of `.` and `/`, looked up in the built map finds a type whose record lists that extension |
| MimeTypes.ExtensionRule | index.js:98-101 | for input whose lower-cased form matches with token `m`, the result is the first extension listed by `m`'s record whenever it is present and non-empty, and nothing otherwise |
| MimeTypes.ExtensionNoMatch | index.js:99-101 | input the pattern does not match has no extension |
| MimeTypes.ExtensionOfKey | index.js:98-101 | a database key that is its own extracted type yields the first extension its record lists |
| MimeTypes.ExtensionNormalises | index.js:98-101 | `extension` ignores case and parameters after a `;` |
| MimeTypes.SameTypeWithParameters | index.js:39-40 | appending a `;` parameter list keeps the extracted type |
| MimeTypes.DeclaredCharset | index.js:43-44 | a declared charset is non-empty |
| MimeTypes.Charset | index.js:34-54 | a result is non-empty and comes from input that matches the pattern; the empty input has none |
| MimeTypes.CharsetRule | index.js:39-53 | for matching input, a declared charset of the captured type wins; otherwise the answer is `UTF-8` exactly when the type contains `text/`, and nothing otherwise |
| MimeTypes.CharsetNoMatch | index.js:40-53 | input the pattern does not match has no charset |
| MimeTypes.CharsetTextDefault | index.js:47-50 | a `text/` type with no declared charset gets `UTF-8` |
| MimeTypes.CharsetNormalises | index.js:39-40 | `charset` ignores case and parameters after a `;` |
| MimeTypes.ParameterMentionsCharset | index.js:79 | the appended parameter starts with `;` and mentions `charset` |
| MimeTypes.CharsetParameter | index.js:79 | no contract; `ParameterMentionsCharset` and `ContentTypeCharsetAgrees` state what the appended parameter carries |
| MimeTypes.Resolve | index.js:69-71 | no contract; the type `contentType` starts from, used by `ContentTypeShape` |
| MimeTypes.ContentType | index.js:63-83 | the empty input gives nothing and a result is non-empty |
| MimeTypes.ContentTypeShape | index.js:69-82 | the result is the resolved type, with one charset parameter appended exactly when the type does not mention `charset` and `charset` knows one |
| MimeTypes.ContentTypeKeepsCharset | index.js:69-82 | a type with a `/` that already mentions `charset` comes back unchanged |
| MimeTypes.ContentTypeCharsetAgrees | index.js:78-79 | an appended parameter names the charset that `charset` reports for the result itself |
| MimeTypes.ContentTypeIdempotent | index.js:69-82 | feeding a result with a `/` back in returns it unchanged |
| MimeTypes.ContentTypeViaLookup | index.js:69-71 | giving an extension is the same as giving the type it looks up, when that type contains a `/` |

## Left out

- The `mime-db` data set itself: the database is a parameter (`MimeDb.Database`), enumerated as a sequence in `Object.keys` order. Type keys are assumed distinct and non-empty (`MimeDb.WellFormed`), as an object's keys and the real data are.
- Module initialisation and exports (`types` filled once at load time, the exported object): the built map is the parameter `types` of the queries, and `TypeMap.Populate` builds it from an empty map.
- The `typeof ... !== 'string'` guards: every input is a string, so only the empty-string case of `!str` is modelled.
- `path.extname` on Windows and its handling of separators other than `/`: `PathExt` is the POSIX reading, which is the one `lookup` uses on POSIX hosts.
- `String.prototype.toLowerCase` and the regular expression's `\s` beyond ASCII: lower-casing maps only `A`–`Z`, and white space is space, tab, line feed, vertical tab, form feed and carriage return. Strings are sequences of characters, not of UTF-16 code units.
- Inherited object properties: `types` and `db` are plain JavaScript objects, so a key such as `constructor` reads as present before anything is stored; the model uses maps and sequences without such keys.
- `db[types[extension]].source` on a held type that is not a database key would throw in JavaScript; this cannot happen in a map built from an empty one (`TypeMap.PopulateSound`), and the model reads it as a missing source.
- Independence from enumeration order is not claimed, because the code does not have it (see above and `TypeMap.OrderMatters`).
- PathExt.Extname: states only the shape of the extension; its value is pinned down for the cases `lookup` relies on by `PathExt.ExtnameInDirectory` and the `MimeTypes.Lookup*` lemmas, not in general.

=== FILE: extract.dfy ===
/**
 The type extractor defined by `EXTRACT_TYPE_REGEXP`:

   optional leading white space, then a captured `type/subtype` token whose
   two segments each start with an alphanumeric and hold at most 127
   characters, followed by `;`, white space or the end of the input.

 `Extract` is a deterministic scanner. Neither segment class contains `/`,
 `;` or white space, so the regular expression can match in one way only,
 and a scanner that reads each run as far as it goes and then checks the
 length cap and the character that follows finds that match. `Matches` states
 the regular expression declaratively; `ExtractMatches` proves the two agree.
 */
module TypeExtract {
  import opened Optional
  import opened Text

  /** Longest segment the pattern admits: one alphanumeric plus `{0,126}`. */
  const MaxSegment := 127

  datatype CharClass = Space | TypeChar | SubtypeChar

  predicate InClass(c: char, k: CharClass) {
    match k
    case Space => IsSpace(c)
    case TypeChar => IsAlnum(c) || IsTypeSymbol(c)
    case SubtypeChar => IsAlnum(c) || IsTypeSymbol(c) || c == '.' || c == '+'
  }

  /** The punctuation both segment classes admit: `!#$&^_-`. */
  predicate IsTypeSymbol(c: char) {
    c == '!' || c == '#' || c == '$' || c == '&' || c == '^' || c == '_' || c == '-'
  }

  /** The end of the longest run of `k`-characters of `s` that starts at `i`. */
  function RunEnd(s: string, i: nat, k: CharClass): (j: nat)
    requires i <= |s|
    ensures i <= j <= |s|
    ensures forall p :: i <= p < j ==> InClass(s[p], k)
    ensures j == |s| || !InClass(s[j], k)
    decreases |s| - i
  {
    if i < |s| && InClass(s[i], k) then RunEnd(s, i + 1, k) else i
  }

  /** A run is determined by where it starts. */
  lemma RunEndUnique(s: string, i: nat, j: nat, k: CharClass)
    requires i <= j <= |s|
    requires forall p :: i <= p < j ==> InClass(s[p], k)
    requires j == |s| || !InClass(s[j], k)
    ensures RunEnd(s, i, k) == j
  {
  }

  /** The characters that may follow the token: `(?:;|\s|$)`. */
  predicate Terminated(s: string, m: nat)
    requires m <= |s|
  {
    m == |s| || s[m] == ';' || IsSpace(s[m])
  }

  /** `s.match(EXTRACT_TYPE_REGEXP)`, yielding the captured group. */
  function Extract(s: string): (r: Option<string>)
  {
    var i := RunEnd(s, 0, Space);
    if i < |s| && IsAlnum(s[i]) then
      var j := RunEnd(s, i + 1, TypeChar);
      if j - i <= MaxSegment && j + 1 < |s| && s[j] == '/' && IsAlnum(s[j + 1]) then
        var m := RunEnd(s, j + 2, SubtypeChar);
        if m - (j + 1) <= MaxSegment && Terminated(s, m) then
          Some(s[i..m])
        else None
      else None
    else None
  }

  // ---------------------------------------------------------------------
  // The regular expression, stated as a decomposition of the input

  /** A segment: one alphanumeric, then at most 126 characters of class `k`. */
  predicate Segment(w: string, k: CharClass) {
    && 1 <= |w| <= MaxSegment
    && IsAlnum(w[0])
    && forall p :: 1 <= p < |w| ==> InClass(w[p], k)
  }

  predicate AllSpace(w: string) {
    forall p :: 0 <= p < |w| ==> IsSpace(w[p])
  }

  predicate Shape(lead: string, a: string, b: string, rest: string) {
    && AllSpace(lead)
    && Segment(a, TypeChar)
    && Segment(b, SubtypeChar)
    && (rest == [] || rest[0] == ';' || IsSpace(rest[0]))
  }

  /** `s` splits into leading white space, the token `a/b`, and the rest. */
  predicate SplitsAs(s: string, lead: string, a: string, b: string, rest: string) {
    Shape(lead, a, b, rest) && s == lead + a + "/" + b + rest
  }

  /** The regular expression matches `s` and captures `t`. */
  ghost predicate Matches(s: string, t: string) {
    exists lead, a, b, rest :: SplitsAs(s, lead, a, b, rest) && t == a + "/" + b
  }

  /** A run found by the scanner that starts with an alphanumeric and
      respects the cap is a segment. */
  lemma RunIsSegment(s: string, i: nat, j: nat, k: CharClass)
    requires i < j <= |s| && j - i <= MaxSegment
    requires IsAlnum(s[i])
    requires forall p :: i + 1 <= p < j ==> InClass(s[p], k)
    ensures Segment(s[i..j], k)
  {
    var w := s[i..j];
    forall p | 1 <= p < |w| ensures InClass(w[p], k) {
      assert w[p] == s[i + p];
    }
  }

  /** Where a match sits in `s`: white space before `i`, the type from `i`
      to the `/` at `j`, the subtype from `j + 1` to `m`, then a terminator. */
  predicate Positions(s: string, i: nat, j: nat, m: nat) {
    && i < j && j + 1 < m <= |s|
    && j - i <= MaxSegment && m - (j + 1) <= MaxSegment
    && (forall p :: 0 <= p < i ==> InClass(s[p], Space))
    && IsAlnum(s[i])
    && (forall p :: i + 1 <= p < j ==> InClass(s[p], TypeChar))
    && s[j] == '/' && IsAlnum(s[j + 1])
    && (forall p :: j + 2 <= p < m ==> InClass(s[p], SubtypeChar))
    && Terminated(s, m)
  }

  /** When the scanner succeeds, its three runs mark the positions of a match. */
  lemma ScanPositions(s: string) returns (i: nat, j: nat, m: nat)
    requires Extract(s).Some?
    ensures Positions(s, i, j, m) && Extract(s).value == s[i..m]
  {
    i := RunEnd(s, 0, Space);
    assert i < |s| && IsAlnum(s[i]);
    j := RunEnd(s, i + 1, TypeChar);
    assert j - i <= MaxSegment && j + 1 < |s| && s[j] == '/' && IsAlnum(s[j + 1]);
    m := RunEnd(s, j + 2, SubtypeChar);
    assert m - (j + 1) <= MaxSegment && Terminated(s, m);
  }

  /** Conversely the scanner finds any match given by its positions. */
  lemma ScanFinds(s: string, i: nat, j: nat, m: nat)
    requires Positions(s, i, j, m)
    ensures Extract(s) == Some(s[i..m])
  {
    RunEndUnique(s, 0, i, Space);
    RunEndUnique(s, i + 1, j, TypeChar);
    RunEndUnique(s, j + 2, m, SubtypeChar);
    ScanSucceeds(s, i, j, m);
  }

  /** The scanner's checks, passed at known run ends. */
  lemma ScanSucceeds(s: string, i: nat, j: nat, m: nat)
    requires i < |s| && RunEnd(s, 0, Space) == i && IsAlnum(s[i])
    requires i < j && j + 1 < |s| && RunEnd(s, i + 1, TypeChar) == j
    requires j - i <= MaxSegment && s[j] == '/' && IsAlnum(s[j + 1])
    requires j + 1 < m <= |s| && RunEnd(s, j + 2, SubtypeChar) == m
    requires m - (j + 1) <= MaxSegment && Terminated(s, m)
    ensures Extract(s) == Some(s[i..m])
  {
  }

  /** Positions cut `s` into the parts of a split. */
  lemma PositionsSplit(s: string, i: nat, j: nat, m: nat)
    requires Positions(s, i, j, m)
    ensures SplitsAs(s, s[..i], s[i..j], s[j + 1..m], s[m..])
    ensures s[i..m] == s[i..j] + "/" + s[j + 1..m]
  {
    RunIsSegment(s, i, j, TypeChar);
    RunIsSegment(s, j + 1, m, SubtypeChar);
    CutAt(s, i, j, m);
  }

  /** Cutting `s` at the token's bounds and around its `/`. */
  lemma CutAt(s: string, i: nat, j: nat, m: nat)
    requires i < j < m <= |s| && s[j] == '/'
    ensures s[i..m] == s[i..j] + "/" + s[j + 1..m]
    ensures s == s[..i] + s[i..j] + "/" + s[j + 1..m] + s[m..]
  {
    assert s[i..m] == s[i..j] + s[j..j + 1] + s[j + 1..m];
    assert s == s[..i] + s[i..m] + s[m..];
  }

  /** What the scanner returns is a match of the regular expression. */
  lemma ExtractSound(s: string)
    ensures Extract(s).Some? ==> Matches(s, Extract(s).value)
  {
    if Extract(s).Some? {
      var i, j, m := ScanPositions(s);
      PositionsMatch(s, i, j, m);
    }
  }

  /** The token at a match's positions is what the regular expression captures. */
  lemma PositionsMatch(s: string, i: nat, j: nat, m: nat)
    requires Positions(s, i, j, m)
    ensures Matches(s, s[i..m])
  {
    PositionsSplit(s, i, j, m);
    assert SplitsAs(s, s[..i], s[i..j], s[j + 1..m], s[m..]) && s[i..m] == s[i..j] + "/" + s[j + 1..m];
  }

  /** A split's parts mark the positions of a match. */
  lemma SplitPositions(s: string, lead: string, a: string, b: string, rest: string)
    requires SplitsAs(s, lead, a, b, rest)
    ensures Positions(s, |lead|, |lead| + |a|, |lead| + |a| + 1 + |b|)
    ensures s[|lead|..|lead| + |a| + 1 + |b|] == a + "/" + b
  {
    var i, j := |lead|, |lead| + |a|;
    forall p | 0 <= p < i ensures InClass(s[p], Space) {
      assert s[p] == lead[p];
    }
    assert s[i] == a[0];
    forall p | i + 1 <= p < j ensures InClass(s[p], TypeChar) {
      assert s[p] == a[p - i];
    }
    assert s[j + 1] == b[0];
    forall p | j + 2 <= p < j + 1 + |b| ensures InClass(s[p], SubtypeChar) {
      assert s[p] == b[p - j - 1];
    }
    assert j + 1 + |b| < |s| ==> s[j + 1 + |b|] == rest[0];
    assert s[i..j + 1 + |b|] == a + "/" + b;
  }

  /** Every match of the regular expression is what the scanner returns. */
  lemma ExtractComplete(s: string, t: string)
    requires Matches(s, t)
    ensures Extract(s) == Some(t)
  {
    var lead, a, b, rest :| SplitsAs(s, lead, a, b, rest) && t == a + "/" + b;
    SplitPositions(s, lead, a, b, rest);
    ScanFinds(s, |lead|, |lead| + |a|, |lead| + |a| + 1 + |b|);
  }

  /** The scanner and the regular expression agree on every input. */
  lemma ExtractMatches(s: string, t: string)
    ensures Extract(s) == Some(t) <==> Matches(s, t)
  {
    ExtractSound(s);
    if Matches(s, t) {
      ExtractComplete(s, t);
    }
  }

  /** Extraction fails when the type segment runs past 127 characters. */
  lemma LongTypeFails(lead: string, a: string, rest: string)
    requires AllSpace(lead)
    requires |a| == MaxSegment + 1 && IsAlnum(a[0])
    requires forall p :: 0 <= p < |a| ==> InClass(a[p], TypeChar)
    ensures Extract(lead + a + rest).None?
  {
    var s := lead + a + rest;
    var i := |lead|;
    RunEndUnique(s, 0, i, Space);
    assert forall p :: i + 1 <= p < i + |a| ==> InClass(s[p], TypeChar) by {
      forall p | i + 1 <= p < i + |a| ensures s[p] == a[p - i] { }
    }
    var j := RunEnd(s, i + 1, TypeChar);
    if j < i + |a| {
      assert false;
    }
  }

  /** Extraction fails when the subtype segment runs past 127 characters. */
  lemma LongSubtypeFails(lead: string, a: string, b: string, rest: string)
    requires AllSpace(lead) && Segment(a, TypeChar)
    requires |b| == MaxSegment + 1 && IsAlnum(b[0])
    requires forall p :: 0 <= p < |b| ==> InClass(b[p], SubtypeChar)
    ensures Extract(lead + a + "/" + b + rest).None?
  {
    var s := lead + a + "/" + b + rest;
    var tail := b + rest;
    assert s == lead + a + "/" + tail;
    var i := |lead|;
    var j := i + |a|;
    TypeRun(lead, a, tail);
    assert forall p :: j + 2 <= p < j + 1 + |b| ==> InClass(s[p], SubtypeChar) by {
      forall p | j + 2 <= p < j + 1 + |b| ensures s[p] == b[p - j - 1] { }
    }
    assert s[j + 1] == b[0];
    var m := RunEnd(s, j + 2, SubtypeChar);
    if m < j + 1 + |b| {
      assert false;
    }
  }

  /** Behind leading white space, a type segment followed by `/` is exactly
      the run the scanner reads. */
  lemma TypeRun(lead: string, a: string, tail: string)
    requires AllSpace(lead) && Segment(a, TypeChar)
    ensures var s := lead + a + "/" + tail;
      && |lead| + |a| < |s| && s[|lead|] == a[0] && s[|lead| + |a|] == '/'
      && RunEnd(s, 0, Space) == |lead|
      && RunEnd(s, |lead| + 1, TypeChar) == |lead| + |a|
  {
    var s := lead + a + "/" + tail;
    var i := |lead|;
    var j := i + |a|;
    assert s[i] == a[0];
    RunEndUnique(s, 0, i, Space);
    assert forall p :: i + 1 <= p < j ==> InClass(s[p], TypeChar) by {
      forall p | i + 1 <= p < j ensures s[p] == a[p - i] { }
    }
    assert s[j] == '/';
    RunEndUnique(s, i + 1, j, TypeChar);
  }

  /** A bare token is matched in full. */
  lemma TokenMatchesItself(a: string, b: string)
    requires Segment(a, TypeChar) && Segment(b, SubtypeChar)
    ensures Matches(a + "/" + b, a + "/" + b)
  {
    assert a + "/" + b == [] + a + "/" + b + [];
    assert SplitsAs(a + "/" + b, [], a, b, []);
  }

  /** Re-extracting a returned token yields the same token. */
  lemma ExtractIdempotent(s: string)
    ensures Extract(s).Some? ==> Extract(Extract(s).value) == Extract(s)
  {
    if Extract(s).Some? {
      var t := Extract(s).value;
      ExtractSound(s);
      var lead, a, b, rest :| SplitsAs(s, lead, a, b, rest) && t == a + "/" + b;
      TokenMatchesItself(a, b);
      ExtractComplete(t, t);
    }
  }

  /** Neither segment class admits a `/`. */
  lemma SegmentHasNoSlash(w: string, k: CharClass)
    requires Segment(w, k)
    ensures '/' !in w
  {
    assert forall p :: 0 <= p < |w| ==> w[p] != '/';
  }

  /** A returned token has exactly one `/`, with a segment on either side. */
  lemma ExtractToken(s: string)
    ensures Extract(s).Some? ==>
      exists a, b :: Segment(a, TypeChar) && Segment(b, SubtypeChar) && '/' !in a && '/' !in b
                     && Extract(s).value == a + "/" + b
  {
    if Extract(s).Some? {
      var i, j, m := ScanPositions(s);
      var t := Extract(s).value;
      var a, b := PositionsToken(s, i, j, m);
      assert Segment(a, TypeChar) && Segment(b, SubtypeChar) && '/' !in a && '/' !in b && t == a + "/" + b;
    }
  }

  /** The token at a match's positions is two slash-free segments around a `/`. */
  lemma PositionsToken(s: string, i: nat, j: nat, m: nat) returns (a: string, b: string)
    requires Positions(s, i, j, m)
    ensures Segment(a, TypeChar) && Segment(b, SubtypeChar) && '/' !in a && '/' !in b
    ensures s[i..m] == a + "/" + b
  {
    PositionsSplit(s, i, j, m);
    a, b := s[i..j], s[j + 1..m];
    SegmentHasNoSlash(a, TypeChar);
    SegmentHasNoSlash(b, SubtypeChar);
  }

  /** Lower-case input gives a lower-case token. */
  lemma ExtractLowerCase(s: string)
    requires IsLowerCase(s)
    ensures Extract(s).Some? ==> IsLowerCase(Extract(s).value)
  {
    if Extract(s).Some? {
      var i, j, m := ScanPositions(s);
      assert forall p :: 0 <= p < m - i ==> s[i..m][p] == s[i + p];
    }
  }

  /** Text appended after a `;` leaves the positions of a match in place. */
  lemma PositionsExtend(s: string, params: string, i: nat, j: nat, m: nat)
    requires Positions(s, i, j, m)
    requires |params| > 0 && params[0] == ';'
    ensures Positions(s + params, i, j, m)
    ensures (s + params)[i..m] == s[i..m]
  {
    var s' := s + params;
    assert forall p :: 0 <= p < |s| ==> s'[p] == s[p];
    assert m < |s'| && (s'[m] == ';' || IsSpace(s'[m])) by {
      if m == |s| { assert s'[m] == params[0]; }
    }
  }

  /** Parameters appended after a `;` do not change the extracted token. */
  lemma ExtractIgnoresParameters(s: string, params: string)
    requires Extract(s).Some?
    requires |params| > 0 && params[0] == ';'
    ensures Extract(s + params) == Extract(s)
  {
    var i, j, m := ScanPositions(s);
    PositionsExtend(s, params, i, j, m);
    ScanFinds(s + params, i, j, m);
  }
}

=== FILE: mimedb.dfy ===
/** Optional values: the model's reading of the library's `false` sentinel
    and of JavaScript's `undefined` fields. */
module Optional {
  datatype Option<+T> = None | Some(value: T)
}

/**
 The database the library consumes (the `mime-db` package): a collection of
 records keyed by a MIME type string, enumerated in a fixed order.
 */
module MimeDb {
  import opened Optional

  /** One database record. An absent field is `None`. */
  datatype MimeRecord = MimeRecord(
    source: Option<string>,
    extensions: Option<seq<string>>,
    charset: Option<string>)

  /** The database as its keys enumerate: type name paired with its record. */
  type Database = seq<(string, MimeRecord)>

  /** What a JavaScript object guarantees of its keys (no key twice) and
      what every real type name satisfies (it is not empty). */
  predicate WellFormed(db: Database) {
    && (forall i, j :: 0 <= i < j < |db| ==> db[i].0 != db[j].0)
    && (forall i :: 0 <= i < |db| ==> db[i].0 != "")
  }

  /** `db[key]`: the record stored under `key`, if any. */
  function Get(db: Database, key: string): (r: Option<MimeRecord>)
    ensures r.None? <==> forall i :: 0 <= i < |db| ==> db[i].0 != key
    ensures r.Some? ==> exists i :: 0 <= i < |db| && db[i] == (key, r.value)
  {
    if |db| == 0 then None
    else if db[0].0 == key then Some(db[0].1)
    else
      var r := Get(db[1..], key);
      assert r.Some? ==> exists i :: 0 <= i < |db[1..]| && db[1..][i] == (key, r.value);
      r
  }

  /** In a well-formed database the entry at index `k` is the one its key finds. */
  lemma GetAt(db: Database, k: nat)
    requires WellFormed(db)
    requires k < |db|
    ensures Get(db, db[k].0) == Some(db[k].1)
  {
    var r := Get(db, db[k].0);
    var i :| 0 <= i < |db| && db[i] == (db[k].0, r.value);
    assert i == k;
  }

  /** A record lists extension `e`. */
  predicate Lists(r: MimeRecord, e: string) {
    r.extensions.Some? && e in r.extensions.value
  }

  /** `t` is a key of the database whose record lists `e`. */
  predicate HasExtension(db: Database, t: string, e: string) {
    Get(db, t).Some? && Lists(Get(db, t).value, e)
  }

  /** Some record of the database lists `e`. */
  ghost predicate Claimed(db: Database, e: string) {
    exists k :: 0 <= k < |db| && Lists(db[k].1, e)
  }
}

=== FILE: mimetypes.dfy ===
/**
 The four public queries. Each takes the database and, where it needs it,
 the extension map `Populate` built from it; `None` stands for the `false`
 the library returns when it has no answer.
 */
module MimeTypes {
  import opened Optional
  import opened Text
  import opened MimeDb
  import opened TypeMap
  import opened TypeExtract
  import opened PathExt

  /** The type `charset` and `extension` look up: the input is lower-cased
      and then matched against the extraction pattern. */
  function TypeOf(s: string): (r: Option<string>)
    ensures r.Some? ==> IsLowerCase(r.value)
  {
    ExtractLowerCase(Lower(s));
    Extract(Lower(s))
  }

  /** `(extension && types[extension]) || false`: an empty extension and an
      empty mapped type both count as missing. */
  function Find(types: map<string, string>, ext: string): (r: Option<string>)
    ensures r.Some? ==> ext in types && r.value == types[ext] && r.value != ""
    ensures r.None? ==> ext == "" || ext !in types || types[ext] == ""
  {
    if ext != "" && ext in types && types[ext] != "" then Some(types[ext]) else None
  }

  /** The extension `lookup` derives: `extname('x.' + path)`, lower-cased,
      without its dot. */
  function PathExtension(path: string): (ext: string)
    ensures IsLowerCase(ext) && '.' !in ext && '/' !in ext
  {
    var e := Lower(Extname("x." + path));
    if |e| == 0 then "" else
      assert forall p :: 1 <= p < |e| ==> e[p] == LowerChar(Extname("x." + path)[p]);
      e[1..]
  }

  /** `lookup(path)`: the type the map assigns to the path's extension. */
  function Lookup(types: map<string, string>, path: string): (r: Option<string>)
    ensures path == "" ==> r.None?
    ensures r.Some? ==> r.value != "" && r.value in types.Values
  {
    if path == "" then None else Find(types, PathExtension(path))
  }

  /** `extension(type)`: the first extension the database lists for the
      extracted type. */
  function Extension(db: Database, t: string): (r: Option<string>)
    ensures r.Some? ==> r.value != "" && TypeOf(t).Some? && HasExtension(db, TypeOf(t).value, r.value)
    ensures t == "" ==> r.None?
  {
    if t == "" then None else
    match TypeOf(t)
    case None => None
    case Some(m) =>
      match Get(db, m)
      case None => None
      case Some(rec) =>
        match rec.extensions
        case None => None
        case Some(xs) => if |xs| > 0 && xs[0] != "" then Some(xs[0]) else None
  }

  /** The database's charset for type `m`, when present and non-empty. */
  function DeclaredCharset(db: Database, m: string): (r: Option<string>)
    ensures r.Some? ==> r.value != ""
  {
    match Get(db, m)
    case Some(rec) => if rec.charset.Some? && rec.charset.value != "" then rec.charset else None
    case None => None
  }

  /** `charset(type)`: the database's non-empty charset for the extracted
      type, else `UTF-8` for a token containing `text/`. */
  function Charset(db: Database, t: string): (r: Option<string>)
    ensures r.Some? ==> r.value != "" && TypeOf(t).Some?
    ensures t == "" ==> r.None?
  {
    if t == "" then None else
    match TypeOf(t)
    case None => None
    case Some(m) =>
      if DeclaredCharset(db, m).Some? then DeclaredCharset(db, m)
      else if Contains(m, "text/") then Some("UTF-8")
      else None
  }

  /** The parameter `contentType` appends. */
  function CharsetParameter(c: string): string {
    "; charset=" + Lower(c)
  }

  /** `contentType(str)`: a string with a `/` is taken as the type as it is,
      anything else is looked up; a `charset` parameter is added when the
      type has none and `charset` knows one. */
  function ContentType(db: Database, types: map<string, string>, s: string): (r: Option<string>)
    ensures s == "" ==> r.None?
    ensures r.Some? ==> r.value != ""
  {
    if s == "" then None else
    var mime := if '/' in s then Some(s) else Lookup(types, s);
    match mime
    case None => None
    case Some(m) =>
      if Contains(m, "charset") then Some(m)
      else match Charset(db, m)
        case Some(c) => Some(m + CharsetParameter(c))
        case None => Some(m)
  }

  // ---------------------------------------------------------------------
  // lookup

  /** A path whose last character is a dot has no extension. */
  lemma LookupTrailingDot(types: map<string, string>, path: string)
    requires |path| > 0 && path[|path| - 1] == '.'
    ensures Lookup(types, path).None?
  {
    var q := "x." + path;
    assert q[|q| - 1] == '.';
    var n := TrimmedLength(q);
    assert n == |q|;
    var base := BaseName(q);
    assert q[..n] == q;
    assert |base| > 0 && base[|base| - 1] == '.';
    assert LastIndex(base, '.') == |base| - 1;
  }

  /** For a path without separators the extension is the text after the last
      dot of `"x." + path`, lower-cased. */
  lemma LookupNoSeparator(types: map<string, string>, path: string)
    requires path != "" && '/' !in path
    ensures var q := "x." + path;
      Lookup(types, path) == Find(types, Lower(q[LastIndex(q, '.') + 1..]))
  {
    PathExtensionNoSeparator(path);
  }

  lemma PathExtensionNoSeparator(path: string)
    requires '/' !in path
    ensures var q := "x." + path; PathExtension(path) == Lower(q[LastIndex(q, '.') + 1..])
  {
    var q := "x." + path;
    var d := DottedExtname(q);
    LowerTail(q[d..]);
    assert q[d..][1..] == q[d + 1..];
  }

  /** The extension of a separator-free `x.`-prefixed name starts at its
      last dot. */
  lemma DottedExtname(q: string) returns (d: int)
    requires '/' !in q && |q| >= 2 && q[0] == 'x' && q[1] == '.'
    ensures d == LastIndex(q, '.') && 1 <= d < |q|
    ensures Extname(q) == q[d..]
  {
    d := LastIndex(q, '.');
    ExtnamePlain(q);
  }

  /** For dot-free `p` a bare extension, a dotted one and a file name all
      resolve to the map's entry for `p`, lower-cased. */
  lemma LookupDotFree(types: map<string, string>, p: string, name: string)
    requires p != "" && '.' !in p && '/' !in p && '/' !in name
    ensures Lookup(types, p) == Find(types, Lower(p))
    ensures Lookup(types, "." + p) == Find(types, Lower(p))
    ensures Lookup(types, name + "." + p) == Find(types, Lower(p))
  {
    LookupBare(types, p);
    LookupDotted(types, p);
    LookupNamed(types, p, name);
  }

  lemma LookupBare(types: map<string, string>, p: string)
    requires p != "" && '.' !in p && '/' !in p
    ensures Lookup(types, p) == Find(types, Lower(p))
  {
    assert "x." + p == "x" + "." + p;
    LookupAfterLastDot(types, p, "x", p);
  }

  lemma LookupDotted(types: map<string, string>, p: string)
    requires p != "" && '.' !in p && '/' !in p
    ensures Lookup(types, "." + p) == Find(types, Lower(p))
  {
    var path := "." + p;
    assert '/' !in path;
    assert "x." + path == "x." + "." + p;
    LookupAfterLastDot(types, path, "x.", p);
  }

  lemma LookupNamed(types: map<string, string>, p: string, name: string)
    requires p != "" && '.' !in p && '/' !in p && '/' !in name
    ensures Lookup(types, name + "." + p) == Find(types, Lower(p))
  {
    var path := name + "." + p;
    assert '/' !in path;
    Regroup("x.", name, ".", p);
    LookupAfterLastDot(types, path, "x." + name, p);
  }

  lemma Regroup(a: string, b: string, c: string, d: string)
    ensures a + (b + c + d) == (a + b) + c + d
  {
  }

  /** When `"x." + path` ends in a dot followed by dot-free `p`, the
      extension is `p`. */
  lemma LookupAfterLastDot(types: map<string, string>, path: string, pre: string, p: string)
    requires path != "" && '/' !in path
    requires p != "" && '.' !in p
    requires "x." + path == pre + "." + p
    ensures Lookup(types, path) == Find(types, Lower(p))
  {
    var q := "x." + path;
    var k := |pre|;
    assert q[k] == '.';
    assert q[k + 1..] == p;
    assert forall i :: k < i < |q| ==> q[i] == p[i - k - 1];
    LookupNoSeparator(types, path);
  }

  /** Directories in front of a file name do not matter: the extension of
      the last component is looked up. */
  lemma LookupInDirectory(types: map<string, string>, dir: string, name: string, p: string)
    requires p != "" && '.' !in p && '/' !in p
    requires name != "" && '/' !in name
    ensures Lookup(types, dir + "/" + name + "." + p) == Find(types, Lower(p))
  {
    var path := dir + "/" + name + "." + p;
    DirectoryExtname(dir, name, p);
    PathExtensionOf(path, p);
  }

  /** `path.extname` of `x.dir/name.p` is `.p`. */
  lemma DirectoryExtname(dir: string, name: string, p: string)
    requires p != "" && '.' !in p && '/' !in p
    requires name != "" && '/' !in name
    ensures Extname("x." + (dir + "/" + name + "." + p)) == "." + p
  {
    RegroupPath("x.", dir, name, p);
    ExtnameInDirectory("x." + dir, name, p);
  }

  lemma RegroupPath(x: string, dir: string, name: string, p: string)
    ensures x + (dir + "/" + name + "." + p) == (x + dir) + "/" + (name + "." + p)
  {
  }

  /** A dot-file inside a directory has no extension, unlike a bare `.ext`. */
  lemma LookupDotFileInDirectory(types: map<string, string>, dir: string, p: string)
    requires '.' !in p && '/' !in p
    ensures Lookup(types, dir + "/." + p).None?
  {
    var path := dir + "/." + p;
    var base := "." + p;
    assert "x." + path == ("x." + dir) + "/" + base;
    assert '/' !in base;
    BaseNameAfterSlash("x." + dir, base);
    assert LastIndex(base, '.') == 0;
  }

  /** When `path.extname` yields `.` followed by `p`, `lookup` searches for
      `p` lower-cased. */
  lemma PathExtensionOf(path: string, p: string)
    requires Extname("x." + path) == "." + p
    ensures PathExtension(path) == Lower(p)
  {
    LowerTail("." + p);
    assert ("." + p)[1..] == p;
  }

  /** Against the built map, a dot-free extension finds exactly its entry. */
  lemma LookupPopulated(db: Database, p: string)
    requires WellFormed(db)
    requires p != "" && '.' !in p && '/' !in p
    ensures Lookup(Populate(db), p) ==
              (if Lower(p) in Populate(db) then Some(Populate(db)[Lower(p)]) else None)
  {
    LookupDotFree(Populate(db), p, "");
    PopulateSound(db);
  }

  // ---------------------------------------------------------------------
  // extension

  /** The default extension of a type, looked up again, resolves to a type
      that lists it. */
  lemma ExtensionThenLookup(db: Database, t: string)
    requires WellFormed(db)
    requires Extension(db, t).Some?
    requires var e := Extension(db, t).value; IsLowerCase(e) && '.' !in e && '/' !in e
    ensures var e := Extension(db, t).value;
      Lookup(Populate(db), e).Some? && HasExtension(db, Lookup(Populate(db), e).value, e)
  {
    var e := Extension(db, t).value;
    var m := TypeOf(t).value;
    var rec := Get(db, m).value;
    var i :| 0 <= i < |db| && db[i] == (m, rec);
    assert Lists(db[i].1, e);
    PopulateDomain(db);
    PopulateSound(db);
    LowerOfLowerCase(e);
    LookupPopulated(db, e);
  }

  /** A database key that is its own extracted token yields its first listed
      extension. */
  lemma ExtensionOfKey(db: Database, k: nat)
    requires WellFormed(db) && k < |db|
    requires TypeOf(db[k].0) == Some(db[k].0)
    requires db[k].1.extensions.Some? && |db[k].1.extensions.value| > 0
    requires db[k].1.extensions.value[0] != ""
    ensures Extension(db, db[k].0) == Some(db[k].1.extensions.value[0])
  {
    GetAt(db, k);
  }

  /** `extension` against the pattern: for input whose lower-cased form
      matches with token `m`, the result is the first extension `m`'s record
      lists, whenever that is present and non-empty. */
  lemma ExtensionRule(db: Database, t: string, m: string)
    requires Matches(Lower(t), m)
    ensures Extension(db, t) ==
              match Get(db, m)
              case None => None
              case Some(rec) =>
                if rec.extensions.Some? && |rec.extensions.value| > 0 && rec.extensions.value[0] != ""
                then Some(rec.extensions.value[0]) else None
  {
    ExtractComplete(Lower(t), m);
  }

  /** Input the pattern does not match has no extension. */
  lemma ExtensionNoMatch(db: Database, t: string)
    requires forall m :: !Matches(Lower(t), m)
    ensures Extension(db, t).None?
  {
    if TypeOf(t).Some? {
      ExtractSound(Lower(t));
    }
  }

  /** `extension` ignores case and anything after a `;`. */
  lemma ExtensionNormalises(db: Database, t: string, params: string)
    requires TypeOf(t).Some?
    requires |params| > 0 && params[0] == ';'
    ensures Extension(db, Lower(t)) == Extension(db, t)
    ensures Extension(db, t + params) == Extension(db, t)
  {
    LowerIdempotent(t);
    SameTypeWithParameters(t, params);
  }

  /** The extracted type survives lower-casing and appended parameters. */
  lemma SameTypeWithParameters(t: string, params: string)
    requires TypeOf(t).Some?
    requires |params| > 0 && params[0] == ';'
    ensures TypeOf(t + params) == TypeOf(t)
  {
    LowerAppend(t, params);
    assert Lower(params)[0] == ';';
    ExtractIgnoresParameters(Lower(t), Lower(params));
  }

  // ---------------------------------------------------------------------
  // charset

  /** `charset` against the pattern: for input whose lower-cased form
      matches with token `m`, the declared charset wins, then the `text/`
      default. */
  lemma CharsetRule(db: Database, t: string, m: string)
    requires Matches(Lower(t), m)
    ensures DeclaredCharset(db, m).Some? ==> Charset(db, t) == DeclaredCharset(db, m)
    ensures DeclaredCharset(db, m).None? ==> (Charset(db, t) == Some("UTF-8") <==> Contains(m, "text/"))
    ensures DeclaredCharset(db, m).None? ==> (Charset(db, t).None? <==> !Contains(m, "text/"))
  {
    ExtractComplete(Lower(t), m);
  }

  /** Input the pattern does not match has no charset. */
  lemma CharsetNoMatch(db: Database, t: string)
    requires forall m :: !Matches(Lower(t), m)
    ensures Charset(db, t).None?
  {
    if TypeOf(t).Some? {
      ExtractSound(Lower(t));
    }
  }

  /** Any `text/` type without a declared charset defaults to UTF-8. */
  lemma CharsetTextDefault(db: Database, b: string)
    requires Segment(b, SubtypeChar) && IsLowerCase(b)
    requires DeclaredCharset(db, "text/" + b).None?
    ensures Charset(db, "text/" + b) == Some("UTF-8")
  {
    var t := "text/" + b;
    TextTokenSelf(b);
    assert TypeOf(t) == Some(t);
    assert t[0..5] == "text/";
    ContainsAt(t, "text/", 0);
  }

  /** A `text/` token is lower-case when its subtype is, and extracts to itself. */
  lemma TextTokenSelf(b: string)
    requires Segment(b, SubtypeChar) && IsLowerCase(b)
    ensures TypeOf("text/" + b) == Some("text/" + b)
  {
    var t := "text/" + b;
    assert "text" + "/" + b == t;
    TokenMatchesItself("text", b);
    assert IsLowerCase(t);
    LowerOfLowerCase(t);
    ExtractComplete(t, t);
  }

  /** `charset` ignores case and anything after a `;`. */
  lemma CharsetNormalises(db: Database, t: string, params: string)
    requires TypeOf(t).Some?
    requires |params| > 0 && params[0] == ';'
    ensures Charset(db, Lower(t)) == Charset(db, t)
    ensures Charset(db, t + params) == Charset(db, t)
  {
    LowerIdempotent(t);
    SameTypeWithParameters(t, params);
  }

  // ---------------------------------------------------------------------
  // contentType

  lemma ParameterMentionsCharset(c: string)
    ensures Contains(CharsetParameter(c), "charset")
    ensures |CharsetParameter(c)| > 0 && CharsetParameter(c)[0] == ';'
  {
    var p := CharsetParameter(c);
    assert p[2..9] == "charset";
    ContainsAt(p, "charset", 2);
  }

  /** The type `contentType` starts from. */
  function Resolve(types: map<string, string>, s: string): Option<string> {
    if '/' in s then Some(s) else Lookup(types, s)
  }

  /** The result is the resolved type, possibly followed by one charset
      parameter, which is added only when the type mentions no charset and
      `charset` knows one; nothing else is changed, in particular a type
      given with a `/` is not lower-cased. */
  lemma ContentTypeShape(db: Database, types: map<string, string>, s: string)
    ensures s == "" || Resolve(types, s).None? ==> ContentType(db, types, s).None?
    ensures s != "" && Resolve(types, s).Some? ==>
              var m := Resolve(types, s).value;
              ContentType(db, types, s).Some? &&
              (ContentType(db, types, s).value == m <==> Contains(m, "charset") || Charset(db, m).None?) &&
              (ContentType(db, types, s).value != m ==>
                 !Contains(m, "charset") && ContentType(db, types, s).value == m + CharsetParameter(Charset(db, m).value))
  {
    if s != "" && Resolve(types, s).Some? {
      var m := Resolve(types, s).value;
      if !Contains(m, "charset") && Charset(db, m).Some? {
        assert |m + CharsetParameter(Charset(db, m).value)| > |m|;
      }
    }
  }

  /** A type that already carries a charset comes back unchanged. */
  lemma ContentTypeKeepsCharset(db: Database, types: map<string, string>, s: string)
    requires '/' in s && Contains(s, "charset")
    ensures ContentType(db, types, s) == Some(s)
  {
  }

  /** The appended charset names what `charset` reports for the result
      itself, and the result mentions a charset. */
  lemma ContentTypeCharsetAgrees(db: Database, types: map<string, string>, s: string)
    requires ContentType(db, types, s).Some?
    requires ContentType(db, types, s) != Resolve(types, s)
    ensures var r := ContentType(db, types, s).value; var m := Resolve(types, s).value;
      Contains(r, "charset") && Charset(db, r) == Charset(db, m)
  {
    var m := Resolve(types, s).value;
    var c := Charset(db, m).value;
    ParameterMentionsCharset(c);
    ContainsExtend(m, CharsetParameter(c), "", "charset");
    assert m + CharsetParameter(c) + "" == m + CharsetParameter(c);
    SameTypeWithParameters(m, CharsetParameter(c));
  }

  /** Feeding a result that contains a `/` back in changes nothing. */
  lemma ContentTypeIdempotent(db: Database, types: map<string, string>, s: string)
    requires ContentType(db, types, s).Some?
    requires '/' in ContentType(db, types, s).value
    ensures var r := ContentType(db, types, s).value; ContentType(db, types, r) == Some(r)
  {
    var r := ContentType(db, types, s).value;
    if ContentType(db, types, s) != Resolve(types, s) {
      ContentTypeCharsetAgrees(db, types, s);
    }
  }

  /** Giving an extension is the same as giving the type it resolves to,
      when that type contains a `/`. */
  lemma ContentTypeViaLookup(db: Database, types: map<string, string>, s: string)
    requires s != "" && '/' !in s
    requires Lookup(types, s).Some? && '/' in Lookup(types, s).value
    ensures ContentType(db, types, s) == ContentType(db, types, Lookup(types, s).value)
  {
  }
}

=== FILE: pathext.dfy ===
/**
 A POSIX reading of Node's `path.extname`, the one foreign call `lookup`
 makes: trailing separators are ignored, the last path component is taken,
 and its extension is the text from its last `.` on, except that a leading
 dot (a dot-file) and the component `..` have none.
 */
module PathExt {

  /** Index of the last occurrence of `c` in `s`, or -1. */
  function LastIndex(s: string, c: char): (r: int)
    ensures -1 <= r < |s|
    ensures r >= 0 ==> s[r] == c
    ensures forall p :: r < p < |s| ==> s[p] != c
    ensures r == -1 <==> c !in s
  {
    if |s| == 0 then -1
    else if s[|s| - 1] == c then |s| - 1
    else LastIndex(s[..|s| - 1], c)
  }

  /** The length of `path` without its trailing separators. */
  function TrimmedLength(path: string): (n: nat)
    ensures n <= |path|
    ensures forall p :: n <= p < |path| ==> path[p] == '/'
    ensures n == 0 || path[n - 1] != '/'
  {
    if |path| > 0 && path[|path| - 1] == '/' then TrimmedLength(path[..|path| - 1]) else |path|
  }

  /** The last component of `path`. */
  function BaseName(path: string): (base: string)
    ensures '/' !in base
  {
    var n := TrimmedLength(path);
    var d := LastIndex(path[..n], '/');
    path[d + 1..n]
  }

  /** `path.extname`: "" or a `.` followed by text free of `.` and `/`. */
  function Extname(path: string): (e: string)
    ensures e == "" || (e[0] == '.' && '.' !in e[1..] && '/' !in e)
  {
    var base := BaseName(path);
    var d := LastIndex(base, '.');
    if d <= 0 || base == ".." then "" else base[d..]
  }

  /** The last component is what follows the last separator, when the path
      does not end in one. */
  lemma BaseNameAfterSlash(dir: string, base: string)
    requires base != "" && '/' !in base
    ensures BaseName(dir + "/" + base) == base
  {
    var s := dir + "/" + base;
    var i := |dir|;
    assert s[|s| - 1] == base[|base| - 1];
    assert TrimmedLength(s) == |s|;
    assert s[..|s|] == s;
    assert s[i] == '/';
    forall p | i < p < |s| ensures s[p] != '/' {
      assert s[p] == base[p - i - 1];
    }
    assert LastIndex(s, '/') == i;
    assert s[i + 1..] == base;
  }

  /** A file name with a non-empty stem, in any directory, has the text from
      its last dot on as extension. */
  lemma ExtnameInDirectory(dir: string, name: string, p: string)
    requires p != "" && '.' !in p && '/' !in p
    requires name != "" && '/' !in name
    ensures Extname(dir + "/" + (name + "." + p)) == "." + p
  {
    var base := name + "." + p;
    assert '/' !in base;
    BaseNameAfterSlash(dir, base);
    LastDot(name, p);
    AfterStem(name, p);
    assert |base| > 2 && base != "..";
  }

  /** The last dot of `name.p`, for dot-free `p`, is the one before `p`. */
  lemma LastDot(name: string, p: string)
    requires '.' !in p
    ensures LastIndex(name + "." + p, '.') == |name|
  {
    var base := name + "." + p;
    var d := |name|;
    assert base[d] == '.';
    assert base[d + 1..] == p;
    LastIndexAt(base, '.', d);
  }

  lemma AfterStem(name: string, p: string)
    ensures (name + "." + p)[|name|..] == "." + p
  {
    assert name + "." + p == name + ("." + p);
  }

  /** The last occurrence is the one with no later occurrence. */
  lemma LastIndexAt(s: string, c: char, d: nat)
    requires d < |s| && s[d] == c
    requires c !in s[d + 1..]
    ensures LastIndex(s, c) == d
  {
    assert forall p :: d < p < |s| ==> s[p] == s[d + 1..][p - d - 1];
  }

  /** On a separator-free path whose first character is not a dot, the
      extension runs from the last dot to the end. */
  lemma ExtnamePlain(path: string)
    requires '/' !in path
    requires |path| > 0 && path[0] != '.'
    ensures Extname(path) == (var d := LastIndex(path, '.'); if d < 0 then "" else path[d..])
  {
    assert TrimmedLength(path) == |path|;
    assert path[..|path|] == path;
    assert BaseName(path) == path;
  }
}

=== FILE: text.dfy ===
/**
 The string primitives the library relies on: JavaScript's `toLowerCase`,
 `includes` and the `\s` character class, restricted to ASCII.
 */
module Text {

  /** An ASCII upper-case letter, the only characters `Lower` changes. */
  predicate IsUpper(c: char) {
    'A' <= c <= 'Z'
  }

  predicate IsAlnum(c: char) {
    IsUpper(c) || 'a' <= c <= 'z' || '0' <= c <= '9'
  }

  /** The ASCII members of JavaScript's `\s`: space, tab, line feed,
      vertical tab, form feed and carriage return. */
  predicate IsSpace(c: char) {
    c == ' ' || c == '\t' || c == '\n' || c == '\U{000B}' || c == '\U{000C}' || c == '\r'
  }

  predicate IsLowerCase(s: string) {
    forall i :: 0 <= i < |s| ==> !IsUpper(s[i])
  }

  function LowerChar(c: char): (r: char)
    ensures !IsUpper(r)
    ensures !IsUpper(c) ==> r == c
    ensures IsUpper(c) ==> r as int == c as int + 32
  {
    if IsUpper(c) then (c as int + 32) as char else c
  }

  /** `String.prototype.toLowerCase` on the ASCII range. */
  function Lower(s: string): (r: string)
    ensures |r| == |s|
    ensures IsLowerCase(r)
    ensures forall i :: 0 <= i < |s| ==> r[i] == LowerChar(s[i])
  {
    seq(|s|, i requires 0 <= i < |s| => LowerChar(s[i]))
  }

  /** Lower-casing leaves a string without upper-case letters untouched. */
  lemma LowerOfLowerCase(s: string)
    requires IsLowerCase(s)
    ensures Lower(s) == s
  {
  }

  lemma LowerIdempotent(s: string)
    ensures Lower(Lower(s)) == Lower(s)
  {
    LowerOfLowerCase(Lower(s));
  }

  lemma LowerTail(s: string)
    requires |s| > 0
    ensures Lower(s)[1..] == Lower(s[1..])
  {
  }

  lemma LowerAppend(a: string, b: string)
    ensures Lower(a + b) == Lower(a) + Lower(b)
  {
  }

  /** `s.includes(sub)`: `sub` occurs somewhere in `s` as a contiguous block. */
  predicate Contains(s: string, sub: string)
    decreases |s|
  {
    |sub| <= |s| && (s[..|sub|] == sub || Contains(s[1..], sub))
  }

  /** A block that occurs at index `i` is found by `Contains`. */
  lemma {:induction false} ContainsAt(s: string, sub: string, i: nat)
    requires i + |sub| <= |s|
    requires s[i..i + |sub|] == sub
    ensures Contains(s, sub)
    decreases i
  {
    if i > 0 {
      assert s[1..][i - 1..i - 1 + |sub|] == s[i..i + |sub|];
      ContainsAt(s[1..], sub, i - 1);
    }
  }

  /** Whatever `Contains` finds occurs at some index. */
  lemma {:induction false} ContainsWitness(s: string, sub: string) returns (i: nat)
    requires Contains(s, sub)
    ensures i + |sub| <= |s| && s[i..i + |sub|] == sub
    decreases |s|
  {
    if s[..|sub|] == sub {
      i := 0;
    } else {
      var j := ContainsWitness(s[1..], sub);
      assert s[1..][j..j + |sub|] == s[j + 1..j + 1 + |sub|];
      i := j + 1;
    }
  }

  /** Adding text on either side never removes an occurrence. */
  lemma ContainsExtend(a: string, s: string, b: string, sub: string)
    requires Contains(s, sub)
    ensures Contains(a + s + b, sub)
  {
    var i := ContainsWitness(s, sub);
    assert (a + s + b)[|a| + i..|a| + i + |sub|] == s[i..i + |sub|];
    ContainsAt(a + s + b, sub, |a| + i);
  }
}

=== FILE: typemap.dfy ===
/**
 The extension-to-type map built once from the database (`populateMaps`).
 The fold visits the database entries in enumeration order and, within an
 entry, its extensions in list order; a conflict over an extension is settled
 by the source-preference rule `KeepsExisting`.
 */
module TypeMap {
  import opened Optional
  import opened Text
  import opened MimeDb

  /** The type that any other claimant displaces. */
  const OctetStream := "application/octet-stream"

  /** Source preference from least to most preferred; `None` stands for a
      record without a `source` field. */
  const Preference: seq<Option<string>> := [Some("nginx"), Some("apache"), None, Some("iana")]

  /** `Array.prototype.indexOf`: the first index holding `x`, or -1. */
  function IndexOf<T(==)>(xs: seq<T>, x: T): (r: int)
    ensures -1 <= r < |xs|
    ensures r == -1 <==> x !in xs
    ensures r >= 0 ==> xs[r] == x && forall p :: 0 <= p < r ==> xs[p] != x
  {
    if |xs| == 0 then -1
    else if xs[0] == x then 0
    else
      var r := IndexOf(xs[1..], x);
      if r == -1 then -1 else r + 1
  }

  function Rank(source: Option<string>): int {
    IndexOf(Preference, source)
  }

  /** The ranks the preference list assigns; a source string that is not
      listed ranks below every listed one, a missing source in the middle. */
  lemma RankValues(source: Option<string>)
    ensures source == Some("nginx") ==> Rank(source) == 0
    ensures source == Some("apache") ==> Rank(source) == 1
    ensures source.None? ==> Rank(source) == 2
    ensures source == Some("iana") ==> Rank(source) == 3
    ensures source.Some? && source.value !in {"nginx", "apache", "iana"} ==> Rank(source) == -1
  {
    assert Preference[0] == Some("nginx");
    assert Preference[1] == Some("apache");
    assert Preference[2] == None;
  }

  /** The source of the record stored under `t`. The model only asks this of
      types already in the map, which are always database keys. */
  function SourceOf(db: Database, t: string): Option<string> {
    match Get(db, t)
    case Some(r) => r.source
    case None => None
  }

  /** The skip condition: `held`, the type an extension already maps to, stays
      when another type, whose record is `incoming`, claims the same extension. */
  predicate KeepsExisting(db: Database, held: string, incoming: MimeRecord) {
    var from := Rank(SourceOf(db, held));
    var to := Rank(incoming.source);
    held != OctetStream && (from > to || (from == to && Contains(held, "application/")))
  }

  /** One step of the inner loop: entry `k` claims extension `e`. An existing
      mapping counts only when it is truthy, i.e. a non-empty string. */
  function Assign(db: Database, k: nat, e: string, types: map<string, string>): (r: map<string, string>)
    requires k < |db|
    ensures r.Keys == types.Keys + {e}
    ensures r[e] == db[k].0 || (e in types && r[e] == types[e])
    ensures forall x :: x in types && x != e ==> r[x] == types[x]
  {
    if e in types && types[e] != "" && KeepsExisting(db, types[e], db[k].1) then types
    else types[e := db[k].0]
  }

  /** The inner loop over the extensions `xs` of entry `k`. */
  function AddExtensions(db: Database, k: nat, xs: seq<string>, types: map<string, string>): (r: map<string, string>)
    requires k < |db|
    ensures r.Keys == types.Keys + set x | x in xs
    decreases |xs|
  {
    if |xs| == 0 then types
    else AddExtensions(db, k, xs[1..], Assign(db, k, xs[0], types))
  }

  /** The extensions entry `k` contributes: none when the field is absent. */
  function ExtensionsOf(r: MimeRecord): seq<string> {
    match r.extensions
    case Some(xs) => xs
    case None => []
  }

  /** Every extension a record contributes is one it lists. */
  lemma ExtensionsListed(r: MimeRecord)
    ensures forall x :: x in ExtensionsOf(r) ==> Lists(r, x)
  {
  }

  /** The outer loop over the database entries from index `k` on. */
  function AddEntries(db: Database, k: nat, types: map<string, string>): (r: map<string, string>)
    requires k <= |db|
    ensures types.Keys <= r.Keys
    decreases |db| - k
  {
    if k == |db| then types
    else AddEntries(db, k + 1, AddExtensions(db, k, ExtensionsOf(db[k].1), types))
  }

  /** `populateMaps` applied to an empty map. */
  function Populate(db: Database): map<string, string> {
    AddEntries(db, 0, map[])
  }

  // ---------------------------------------------------------------------
  // The conflict rule, one step at a time

  /** Consequences of the skip condition for a single claim on an extension
      that already maps to some type. */
  lemma ConflictRule(db: Database, k: nat, e: string, types: map<string, string>)
    requires k < |db|
    requires e in types && types[e] != ""
    ensures types[e] == OctetStream ==> Assign(db, k, e, types)[e] == db[k].0
    ensures Rank(db[k].1.source) > Rank(SourceOf(db, types[e])) ==> Assign(db, k, e, types)[e] == db[k].0
    ensures (types[e] != OctetStream && Rank(SourceOf(db, types[e])) > Rank(db[k].1.source))
            ==> Assign(db, k, e, types) == types
    ensures (Rank(SourceOf(db, types[e])) == Rank(db[k].1.source) && !Contains(types[e], "application/"))
            ==> Assign(db, k, e, types)[e] == db[k].0
    ensures (types[e] != OctetStream && Rank(SourceOf(db, types[e])) == Rank(db[k].1.source)
             && Contains(types[e], "application/"))
            ==> Assign(db, k, e, types) == types
  {
  }

  // ---------------------------------------------------------------------
  // Domain: exactly the claimed extensions

  /** Some entry at index `k` or later lists `e`. */
  ghost predicate ClaimedFrom(db: Database, k: nat, e: string) {
    exists j :: k <= j < |db| && Lists(db[j].1, e)
  }

  lemma ClaimedFromStep(db: Database, k: nat, e: string)
    requires k < |db|
    ensures ClaimedFrom(db, k, e) <==> Lists(db[k].1, e) || ClaimedFrom(db, k + 1, e)
  {
    if ClaimedFrom(db, k, e) && !Lists(db[k].1, e) {
      var j :| k <= j < |db| && Lists(db[j].1, e);
      assert k + 1 <= j;
    }
  }

  lemma {:induction false} AddEntriesClaims(db: Database, k: nat, types: map<string, string>)
    requires k <= |db|
    ensures forall e :: e in AddEntries(db, k, types) <==> e in types || ClaimedFrom(db, k, e)
    decreases |db| - k
  {
    if k < |db| {
      var xs := ExtensionsOf(db[k].1);
      var next := AddExtensions(db, k, xs, types);
      assert AddEntries(db, k, types) == AddEntries(db, k + 1, next);
      AddEntriesClaims(db, k + 1, next);
      ExtensionsListed(db[k].1);
      forall e
        ensures e in AddEntries(db, k, types) <==> e in types || ClaimedFrom(db, k, e)
      {
        ClaimedFromStep(db, k, e);
      }
    }
  }

  /** Every extension that some record lists is mapped, and nothing else. */
  lemma PopulateDomain(db: Database)
    ensures forall e :: e in Populate(db) <==> Claimed(db, e)
  {
    AddEntriesClaims(db, 0, map[]);
  }

  // ---------------------------------------------------------------------
  // Soundness: every mapping is backed by the database

  /** Every mapped type is a database key whose record lists the extension. */
  ghost predicate Backed(db: Database, types: map<string, string>) {
    forall e :: e in types ==> HasExtension(db, types[e], e)
  }

  /** One claim by an entry that lists the extension keeps a map backed. */
  lemma AssignBacked(db: Database, k: nat, x: string, types: map<string, string>)
    requires WellFormed(db)
    requires k < |db| && Lists(db[k].1, x)
    requires Backed(db, types)
    ensures Backed(db, Assign(db, k, x, types))
  {
    GetAt(db, k);
  }

  lemma {:induction false} AddExtensionsBacked(db: Database, k: nat, xs: seq<string>, types: map<string, string>)
    requires WellFormed(db)
    requires k < |db|
    requires forall x :: x in xs ==> Lists(db[k].1, x)
    requires Backed(db, types)
    ensures Backed(db, AddExtensions(db, k, xs, types))
    decreases |xs|
  {
    if |xs| > 0 {
      var next := Assign(db, k, xs[0], types);
      AssignBacked(db, k, xs[0], types);
      assert forall x :: x in xs[1..] ==> x in xs;
      AddExtensionsBacked(db, k, xs[1..], next);
    }
  }

  lemma {:induction false} AddEntriesBacked(db: Database, k: nat, types: map<string, string>)
    requires WellFormed(db)
    requires k <= |db|
    requires Backed(db, types)
    ensures Backed(db, AddEntries(db, k, types))
    decreases |db| - k
  {
    if k < |db| {
      var xs := ExtensionsOf(db[k].1);
      ExtensionsListed(db[k].1);
      var next := AddExtensions(db, k, xs, types);
      AddExtensionsBacked(db, k, xs, types);
      AddEntriesBacked(db, k + 1, next);
      assert AddEntries(db, k, types) == AddEntries(db, k + 1, next);
    }
  }

  /** Whenever `types[e] = t`, `t` is a non-empty database key whose record
      lists `e`; in particular a record without extensions receives nothing. */
  lemma PopulateSound(db: Database)
    requires WellFormed(db)
    ensures forall e :: e in Populate(db) ==>
              Populate(db)[e] != "" && HasExtension(db, Populate(db)[e], e)
  {
    AddEntriesBacked(db, 0, map[]);
    forall e | e in Populate(db)
      ensures Populate(db)[e] != ""
    {
      var r := Get(db, Populate(db)[e]).value;
      var i :| 0 <= i < |db| && db[i] == (Populate(db)[e], r);
    }
  }

  // ---------------------------------------------------------------------
  // A strictly most-preferred claimant wins

  /** Entry `k` claims `e` and every other claimant has a lower rank. */
  predicate StrictWinner(db: Database, k: nat, e: string)
    requires k < |db|
  {
    && Lists(db[k].1, e)
    && db[k].0 != OctetStream
    && forall j :: 0 <= j < |db| && j != k && Lists(db[j].1, e) ==>
         Rank(db[j].1.source) < Rank(db[k].1.source)
  }

  /** Once `e` maps to the winner, further claims by entry `j` keep it there. */
  lemma {:induction false} ExtensionsKeepWinner(db: Database, k: nat, j: nat, xs: seq<string>, e: string,
                                                types: map<string, string>)
    requires WellFormed(db)
    requires k < |db| && j < |db|
    requires StrictWinner(db, k, e)
    requires forall x :: x in xs ==> Lists(db[j].1, x)
    requires e in types && types[e] == db[k].0
    ensures AddExtensions(db, j, xs, types)[e] == db[k].0
    decreases |xs|
  {
    if |xs| > 0 {
      GetAt(db, k);
      var next := Assign(db, j, xs[0], types);
      if xs[0] == e && j != k {
        assert Rank(SourceOf(db, types[e])) > Rank(db[j].1.source);
      }
      ExtensionsKeepWinner(db, k, j, xs[1..], e, next);
    }
  }

  lemma {:induction false} EntriesKeepWinner(db: Database, k: nat, i: nat, e: string, types: map<string, string>)
    requires WellFormed(db)
    requires k < i <= |db|
    requires StrictWinner(db, k, e)
    requires e in types && types[e] == db[k].0
    ensures AddEntries(db, i, types)[e] == db[k].0
    decreases |db| - i
  {
    if i < |db| {
      ExtensionsKeepWinner(db, k, i, ExtensionsOf(db[i].1), e, types);
      EntriesKeepWinner(db, k, i + 1, e, AddExtensions(db, i, ExtensionsOf(db[i].1), types));
    }
  }

  /** While entry `k` runs through its own extensions it takes `e`. */
  lemma {:induction false} ExtensionsTakeWinner(db: Database, k: nat, xs: seq<string>, e: string,
                                                types: map<string, string>)
    requires WellFormed(db)
    requires k < |db|
    requires StrictWinner(db, k, e)
    requires forall x :: x in xs ==> Lists(db[k].1, x)
    requires e in xs
    requires Backed(db, types)
    ensures AddExtensions(db, k, xs, types)[e] == db[k].0
    decreases |xs|
  {
    var next := Assign(db, k, xs[0], types);
    assert AddExtensions(db, k, xs, types) == AddExtensions(db, k, xs[1..], next);
    assert forall x :: x in xs[1..] ==> x in xs;
    if xs[0] == e {
      WinnerTakes(db, k, e, types);
      ExtensionsKeepWinner(db, k, k, xs[1..], e, next);
    } else {
      AssignBacked(db, k, xs[0], types);
      ExtensionsTakeWinner(db, k, xs[1..], e, next);
    }
  }

  /** The winner's own claim on `e` displaces whatever a backed map holds. */
  lemma WinnerTakes(db: Database, k: nat, e: string, types: map<string, string>)
    requires WellFormed(db)
    requires k < |db|
    requires StrictWinner(db, k, e)
    requires Backed(db, types)
    ensures Assign(db, k, e, types)[e] == db[k].0
  {
    if e in types && types[e] != "" && types[e] != db[k].0 {
      GetAt(db, k);
      var r := Get(db, types[e]).value;
      var j :| 0 <= j < |db| && db[j] == (types[e], r);
      assert j != k;
      assert Rank(SourceOf(db, types[e])) < Rank(db[k].1.source);
    }
  }

  lemma {:induction false} EntriesReachWinner(db: Database, k: nat, i: nat, e: string, types: map<string, string>)
    requires WellFormed(db)
    requires i <= k < |db|
    requires StrictWinner(db, k, e)
    requires Backed(db, types)
    ensures e in AddEntries(db, i, types) && AddEntries(db, i, types)[e] == db[k].0
    decreases k - i
  {
    var next := AddExtensions(db, i, ExtensionsOf(db[i].1), types);
    AddExtensionsBacked(db, i, ExtensionsOf(db[i].1), types);
    if i < k {
      EntriesReachWinner(db, k, i + 1, e, next);
    } else {
      ExtensionsTakeWinner(db, k, ExtensionsOf(db[k].1), e, types);
      EntriesKeepWinner(db, k, k + 1, e, next);
    }
  }

  /** A type that claims `e` with a source strictly more preferred than every
      other claimant's ends up as `e`'s type, wherever it sits in the order. */
  lemma PopulateStrictWinner(db: Database, k: nat, e: string)
    requires WellFormed(db)
    requires k < |db|
    requires StrictWinner(db, k, e)
    ensures e in Populate(db) && Populate(db)[e] == db[k].0
  {
    EntriesReachWinner(db, k, 0, e, map[]);
  }

  // ---------------------------------------------------------------------
  // Enumeration order matters

  /** With two entries claiming only `e`, the second takes `e` unless the
      first is a non-empty, non-octet-stream type that outranks it, or ties
      with it and is an `application/` type. */
  lemma TwoClaimants(a: (string, MimeRecord), b: (string, MimeRecord), e: string)
    requires a.1.extensions == Some([e]) && b.1.extensions == Some([e])
    ensures e in Populate([a, b])
    ensures Populate([a, b])[e] ==
              if a.0 != "" && a.0 != OctetStream &&
                 (Rank(a.1.source) > Rank(b.1.source) ||
                  (Rank(a.1.source) == Rank(b.1.source) && Contains(a.0, "application/")))
              then a.0 else b.0
  {
    var db := [a, b];
    assert SourceOf(db, a.0) == a.1.source;
    var t1 := Assign(db, 0, e, map[]);
    assert t1 == map[e := a.0];
    assert AddExtensions(db, 0, [e], map[]) == t1;
    var t2 := Assign(db, 1, e, t1);
    assert AddExtensions(db, 1, [e], t1) == t2;
    assert AddEntries(db, 2, t2) == t2;
    assert AddEntries(db, 1, t1) == t2;
    assert Populate(db) == t2;
  }

  const First := ("text/first", MimeRecord(None, Some(["ext"]), None))
  const Second := ("text/second", MimeRecord(None, Some(["ext"]), None))

  /** Two equally ranked non-`application/` types claiming one extension:
      the one enumerated later wins, so swapping them changes the map. */
  lemma OrderMatters()
    ensures Populate([First, Second])["ext"] == "text/second"
    ensures Populate([Second, First])["ext"] == "text/first"
  {
    TwoClaimants(First, Second, "ext");
    TwoClaimants(Second, First, "ext");
  }

  const Octet := (OctetStream, MimeRecord(Some("iana"), Some(["ext"]), None))
  const Low := ("text/low", MimeRecord(Some("nginx"), Some(["ext"]), None))

  /** `application/octet-stream` is displaced by any later claimant, even one
      it outranks, so it holds an extension only when it is enumerated last. */
  lemma OctetAlwaysDisplaced()
    ensures Rank(Octet.1.source) > Rank(Low.1.source)
    ensures Populate([Octet, Low])["ext"] == "text/low"
    ensures Populate([Low, Octet])["ext"] == OctetStream
  {
    RankValues(Octet.1.source);
    RankValues(Low.1.source);
    TwoClaimants(Octet, Low, "ext");
    TwoClaimants(Low, Octet, "ext");
  }

  const AppClaimant := ("application/first", MimeRecord(None, Some(["ext"]), None))

  /** An `application/` type tied with a non-`application/` one keeps the
      extension in either order, although neither strictly outranks the
      other: a strict winner is not the only order-independent outcome. */
  lemma ApplicationTieHolds()
    ensures Populate([AppClaimant, Second])["ext"] == "application/first"
    ensures Populate([Second, AppClaimant])["ext"] == "application/first"
    ensures !StrictWinner([AppClaimant, Second], 0, "ext")
  {
    ContainsAt(AppClaimant.0, "application/", 0);
    TwoClaimants(AppClaimant, Second, "ext");
    TwoClaimants(Second, AppClaimant, "ext");
    var db := [AppClaimant, Second];
    assert db[1].1.extensions.value[0] == "ext";
  }
}
